=== FILE: README.md ===
# Admin dashboard client state, modelled in Dafny

This project models three pieces of client-side state logic from the
e-commerce admin dashboard. Each is written as pure transitions over
immutable values.

- **Price-list bulk editor** (`src/domain/pricing/bulk-editor/index.tsx`).
  A product section holds three values. `activeFields` is the set of price
  cells selected for editing. `priceChanges` maps a cell key to the amount
  typed for it. `currentEditAmount` is the text shown in every selected
  cell. The model covers:
  - the click, shift-click, typing and column-header handlers;
  - how each cell's displayed amount is resolved;
  - the editor's shift flag;
  - the visible region columns (ids resolved to regions, unknown ids
    dropped, sorted by currency code).

  Module `BulkEditor` holds the section; `BulkEditorSession` folds the
  handlers over a sequence of user events; `RegionFilter` holds the
  columns.
- **Return selection table** (`src/components/organisms/rma-select-product-table/index.tsx`).
  The `toReturn` map goes from line-item id to a return entry. Module
  `RmaSelect` covers:
  - the quantity buttons, clamped to `[1, quantity - returned_quantity]`;
  - selecting and deselecting a line;
  - setting a reason and note;
  - the cancellation test for lines that come from swaps and claims;
  - which rows the table offers.
- **Variant checkboxes of the price-overrides modal** (`src/components/templates/price-overrides/index.tsx`).
  The `variants` form field is a list of ids. Module `PriceOverrides` covers
  when a checkbox reads as checked, and the positional write followed by
  compaction that its `onChange` performs.

Module `JsValues` holds the JavaScript semantics these rely on:
- `null`/`undefined` as `Option`;
- a handler that throws, as `Outcome`;
- string truthiness;
- `find`, `some` and `filter`.

Modelling choices:
- **Cell key.** It is the real string `variantId + "-" + regionId`.
  `SplitKey` reads it back. Keys are proved distinct for distinct cells when
  variant ids hold no dash. Without that assumption, two different cells can
  share a key.
- **Selection after a shift-click on a selected cell.** `toggleActive`
  stores the boolean `true` as the selection.
  `ActiveFields = KeyObject(keys) | BareTrue` represents that value. Every
  read of it finds no selected cell: `Object.keys(true)` is empty and
  `true[key]` is `undefined`.
- **Header click on a product with no variants.** It throws when reading
  `product.variants[0].id`, before any state is set. The model returns
  `ThrewTypeError`, and a session keeps its state.
- **Reason set for an unselected line.** `setReturnReason` then spreads
  `undefined`, so the new entry has no `quantity` and no `images`.
  `ReturnEntry.quantity` is an `Option` and `Images` has a `Missing` case
  for that.
- **Currency order.** `localeCompare` on currency codes is represented by
  `CodeLe`, a lexicographic order on character codes. It agrees with
  `localeCompare` on lower-case three-letter currency codes.

A shift-click that deselects a cell leaves `priceChanges` untouched: the
cell's typed amount stays.

## Model

| member | source | states |
|---|---|---|
| BulkEditor.PriceKey | src/domain/pricing/bulk-editor/index.tsx:170-171 | a cell key is one character longer than the two ids together, with the dash right after the variant id (the split back into the ids is `BulkEditor.SplitPriceKey`) |
| BulkEditor.SplitPriceKey | src/domain/pricing/bulk-editor/index.tsx:170-171 | a key built from a dash-free variant id splits back into exactly that variant id and region id |
| BulkEditor.PriceKeyInjective | src/domain/pricing/bulk-editor/index.tsx:170-171 | two cells with dash-free variant ids have the same key only when they are the same cell |
| BulkEditor.DashedIdsCollide | src/domain/pricing/bulk-editor/index.tsx:170-171 | when ids may contain a dash, two different cells can share a key |
| BulkEditor.ToggleActive | src/domain/pricing/bulk-editor/index.tsx:197-207 | an unselected cell is added and the other selected cells stay; on a selected cell, afterwards no cell reads as selected |
| BulkEditor.ShiftClickOnActiveDropsOthers | src/domain/pricing/bulk-editor/index.tsx:199-203 | deselecting one cell of a two-cell selection also deselects the other cell |
| BulkEditor.ToggleActiveFixed | src/domain/pricing/bulk-editor/index.tsx:199-203 | the intended toggle flips the clicked cell and leaves every other cell's selection as it was |
| BulkEditor.ToggleActiveFixedTwice | src/domain/pricing/bulk-editor/index.tsx:197-207 | with the intended toggle, shift-clicking a cell twice restores the selection |
| BulkEditor.IsActive | src/domain/pricing/bulk-editor/index.tsx:209-210 | a cell is selected exactly when the selection is a key object holding its key; the stored boolean `true` selects no cell |
| BulkEditor.OnPriceInputClick | src/domain/pricing/bulk-editor/index.tsx:217-234 | a plain click makes the selection exactly the clicked cell and clears the edit amount; a shift-click adds an unselected cell to the selection, or leaves nothing selected when the cell was selected; typed amounts never change |
| BulkEditor.OnAmountChange | src/domain/pricing/bulk-editor/index.tsx:236-248 | the amount is recorded for every selected cell, cells not selected keep their typed amount or lack of one, the selection is unchanged, and the edit amount becomes the typed amount |
| BulkEditor.ColumnKeys | src/domain/pricing/bulk-editor/index.tsx:257-258 | holds the key of every variant in the region's column and no other key |
| BulkEditor.OnHeaderClick | src/domain/pricing/bulk-editor/index.tsx:250-260 | throws exactly when the product has no variants; otherwise the selection is exactly the column of the clicked region over the product's variants, the edit amount is cleared, and typed amounts are unchanged |
| BulkEditor.HeaderClickSelectsExactlyTheColumn | src/domain/pricing/bulk-editor/index.tsx:255-259 | with dash-free variant ids, after a header click a cell is selected if and only if it is in the clicked region and belongs to one of the product's variants |
| BulkEditor.CommittedPrice | src/domain/pricing/bulk-editor/index.tsx:321 | the first stored price whose region is the cell's region, and none exactly when no stored price has that region |
| BulkEditor.DisplayAmount | src/domain/pricing/bulk-editor/index.tsx:321-325 | a selected cell shows the edit amount, or nothing when there is none; an unselected cell with a non-empty typed amount shows that amount, whether or not a stored price exists; otherwise it shows the amount of the first stored price for the region, and nothing exactly when no price has that region |
| BulkEditor.TypedAmountShowsInEverySelectedCell | src/domain/pricing/bulk-editor/index.tsx:241-247 | after typing, every selected cell shows the typed amount, whichever cell it was typed into |
| BulkEditor.PendingAmountShownAfterDeselection | src/domain/pricing/bulk-editor/index.tsx:321-325 | a non-empty amount typed into a cell is still shown after a plain click selects another cell |
| BulkEditor.ClearedAmountFallsBackToStoredPrice | src/domain/pricing/bulk-editor/index.tsx:321-325 | an empty typed amount is falsy, so after deselection the cell shows its stored price again |
| BulkEditorSession.Step | src/domain/pricing/bulk-editor/index.tsx:356-358 | after a key-down or key-up the shift flag equals that event's shift key and the section is untouched; other events keep the flag; the typed amount of a cell that was not selected is kept as it was; an amount is added or changed only by typing, only for a selected cell, and it is the typed amount |
| BulkEditorSession.ShiftFlagTracksLastKeyEvent | src/domain/pricing/bulk-editor/index.tsx:356-358 | after any sequence of events the shift flag is that of the last key event, or the starting flag when no key event occurred |
| BulkEditorSession.TypedAmountsComeFromSelectedCells | src/domain/pricing/bulk-editor/index.tsx:241-246 | over any sequence of events, every cell with a typed amount already had one or was selected at some point |
| BulkEditorSession.FreshSessionTypesOnlyIntoSelectedCells | src/domain/pricing/bulk-editor/index.tsx:183-185 | starting from the mounted state, typed amounts exist only for cells that were selected at some point |
| RegionFilter.RegionById | src/domain/pricing/bulk-editor/index.tsx:421 | the first region with the id, and none exactly when no region has it |
| RegionFilter.ResolveIds | src/domain/pricing/bulk-editor/index.tsx:420-422 | every region returned is the one found for its id, is in the region list and has a selected id; every selected id that some region has yields a region; at most as many regions as ids; a single id yields the region found for it, or nothing |
| RegionFilter.ResolveIdsInIdOrder | src/domain/pricing/bulk-editor/index.tsx:420-422 | the regions come in the order of the selected ids: resolving two runs of ids one after the other gives the regions of the first run, then those of the second |
| RegionFilter.ResolveIdsOnePerId | src/domain/pricing/bulk-editor/index.tsx:420-422 | a region found for its id appears exactly as often as that id is selected, so each selected id contributes one region at most |
| RegionFilter.SortByCode | src/domain/pricing/bulk-editor/index.tsx:423-425 | the result is a permutation of the input, in ascending currency-code order |
| RegionFilter.InsertByCodeStable | src/domain/pricing/bulk-editor/index.tsx:423-425 | an inserted region goes ahead of every region with the same code, and regions with each code keep their order |
| RegionFilter.SortByCodeStable | src/domain/pricing/bulk-editor/index.tsx:423-425 | the sort is stable: for every currency code, the regions with that code come out in their input order |
| RegionFilter.VisibleRegions | src/domain/pricing/bulk-editor/index.tsx:419-426 | the columns are a permutation of the resolved regions, sorted by currency code; they contain only listed regions with a selected id, and every selected id that has a region appears |
| RegionFilter.VisibleRegionsKeepSelectionOrder | src/domain/pricing/bulk-editor/index.tsx:419-426 | columns that share a currency code appear in the order of their ids in the selection |
| RegionFilter.ColumnsOrderedByCode | src/domain/pricing/bulk-editor/index.tsx:419-426 | ids r2 (usd) and r1 (eur), plus an unknown id, give the columns eur then usd |
| RmaSelect.HandleQuantity | src/components/organisms/rma-select-product-table/index.tsx:31-55 | a step up at the returnable quantity and a step down at one leave the map unchanged; any other step adds the change to that entry's quantity, keeping its other fields and every other entry |
| RmaSelect.QuantityStepStaysInRange | src/components/organisms/rma-select-product-table/index.tsx:31-52 | with steps of plus or minus one, a quantity in [1, quantity - returned_quantity] stays in that range |
| RmaSelect.QuantityStepKeepsRange | src/components/organisms/rma-select-product-table/index.tsx:31-52 | the quantity buttons keep every selected line's quantity within its range |
| RmaSelect.DefaultEntry | src/components/organisms/rma-select-product-table/index.tsx:65-70 | a newly selected line starts with its whole returnable quantity as a number, zero included, no reason, an empty note, and an empty image list when images are collected or an explicit `null` image field when they are not |
| RmaSelect.HandleReturnToggle | src/components/organisms/rma-select-product-table/index.tsx:57-74 | a selected line's entry is removed and nothing else; an unselected line gets the returnable quantity, no reason, an empty note, and an empty image list only when images are collected |
| RmaSelect.ToggleTwiceRestoresUnselected | src/components/organisms/rma-select-product-table/index.tsx:62-71 | selecting then deselecting a line restores the map |
| RmaSelect.ToggleTwiceResetsSelected | src/components/organisms/rma-select-product-table/index.tsx:62-71 | deselecting then reselecting a line replaces its entry with the default one |
| RmaSelect.ToggleKeepsRange | src/components/organisms/rma-select-product-table/index.tsx:65-70 | selecting or deselecting a line with something left to return keeps every quantity in range |
| RmaSelect.SetReturnReason | src/components/organisms/rma-select-product-table/index.tsx:76-87 | the line's reason and note are set, its quantity and images are kept (and are absent for a line that had no entry), and every other entry is unchanged |
| RmaSelect.SetReasonKeepsRange | src/components/organisms/rma-select-product-table/index.tsx:76-87 | setting the reason of a selected line keeps every quantity in range |
| RmaSelect.TravFind | src/components/organisms/rma-select-product-table/index.tsx:91-92 | true if and only if some record has the id and a set cancellation time |
| RmaSelect.IsLineItemCanceled | src/components/organisms/rma-select-product-table/index.tsx:89-101 | with a swap id, canceled if and only if a swap with that id is canceled; otherwise, with a claim id, if and only if a claim with that id is canceled; with neither, not canceled |
| RmaSelect.SwapTakesPrecedence | src/components/organisms/rma-select-product-table/index.tsx:94-99 | a line with a swap id is not hidden by a canceled claim carrying its claim id |
| RmaSelect.Offered | src/components/organisms/rma-select-product-table/index.tsx:115-118 | with a swap id, a line is offered exactly when something is left to return and that swap is not canceled; otherwise, with a claim id, exactly when something is left and that claim is not canceled; with neither id, exactly when something is left |
| RmaSelect.OfferedItems | src/components/organisms/rma-select-product-table/index.tsx:112-120 | the rows are exactly the order's lines that are not fully returned and not canceled (counts and order follow from `JsValues.FilterCount` and `JsValues.FilterAppend`) |
| PriceOverrides.IsChecked | src/components/templates/price-overrides/index.tsx:147 | a checkbox is checked if and only if its id is in the field's list |
| PriceOverrides.WriteAt | src/components/templates/price-overrides/index.tsx:150-153 | the slot at the position holds the new value, other slots keep theirs, and a write past the end grows the list with empty slots |
| PriceOverrides.Compact | src/components/templates/price-overrides/index.tsx:156 | every kept slot holds a non-empty id from the list and every such slot's id is kept; a single slot is kept exactly when it holds a non-empty id |
| PriceOverrides.CompactCount | src/components/templates/price-overrides/index.tsx:156 | each non-empty id is kept as many times as it occurs, and empty slots are dropped |
| PriceOverrides.CompactAppend | src/components/templates/price-overrides/index.tsx:156 | compaction works slot by slot, so the kept ids stay in their order |
| PriceOverrides.OnCheckboxChange | src/components/templates/price-overrides/index.tsx:148-160 | the new list holds no empty slot; after checking, it contains the id when the id is non-empty; its length is at most the larger of the old length and the position plus one |
| PriceOverrides.ChangeInsideListKeepsOthersInOrder | src/components/templates/price-overrides/index.tsx:150-156 | a change at a position inside the list gives the compacted slots before the position, then the new slot, then the compacted slots after it: other ids keep their relative order |
| PriceOverrides.ChangePastEndAppends | src/components/templates/price-overrides/index.tsx:150-156 | a change at or past the end keeps every id already in the list and appends the new slot; the holes in between vanish |
| PriceOverrides.UncheckDropsThePosition | src/components/templates/price-overrides/index.tsx:150-156 | unchecking removes whatever id sits at the position and keeps every other slot in order |
| PriceOverrides.UncheckPastTheEndChangesNothing | src/components/templates/price-overrides/index.tsx:150-156 | on a list with no empty slot, unchecking at a position at or past its length leaves the list unchanged, so the box stays checked |
| PriceOverrides.UncheckCanLeaveVariantChecked | src/components/templates/price-overrides/index.tsx:147-156 | checking the second variant alone gives a one-element list; unchecking it leaves the variant checked |
| PriceOverrides.CheckCanUncheckAnotherVariant | src/components/templates/price-overrides/index.tsx:150-156 | checking the first variant overwrites the second variant's id |
| PriceOverrides.OnCheckboxChangeFixed | src/components/templates/price-overrides/index.tsx:148-160 | the intended change leaves the checkbox's id checked if and only if the box was checked, and every other id keeps its state |

## Findings

| source | as written | input that shows it | evidently intended | confidence | as-written member | corrected member |
|---|---|---|---|---|---|---|
| src/domain/pricing/bulk-editor/index.tsx:199-203 | a shift-click on a selected cell stores `activeFields[cellKey]` (the boolean `true`) as the whole selection | cells `v1-r1` and `v2-r1` selected; shift-click `v1-r1`; `v2-r1` is no longer selected | remove only the clicked key from a copy of the selection | high; not executed | BulkEditor.ShiftClickOnActiveDropsOthers | BulkEditor.ToggleActiveFixed |
| src/components/templates/price-overrides/index.tsx:150-156 | the checkbox writes at its variant's position in the already compacted list | check the second variant alone, giving `["variant_b"]`; unchecking it writes position 1 and the list stays `["variant_b"]` | unchecking removes the id and checking adds it, without touching other ids | high; not executed | PriceOverrides.UncheckCanLeaveVariantChecked | PriceOverrides.OnCheckboxChangeFixed |

Both as-written behaviours stay the ones the model uses:
- `BulkEditor.ToggleActive` and `BulkEditorSession.Step` deselect by
  clearing the whole selection.
- `PriceOverrides.OnCheckboxChange` writes by position.

The corrected definitions sit beside them, with the intended properties
proved.

## Left out

- Focus handling is not modelled: `blur`/`focus` (bulk-editor 228-229) and
  `getElementById(...).focus()` (251-253) are DOM side effects. The focus
  decision at line 228 also reads the selection from before the toggle.
- `console.log` (bulk-editor 198) and the registration and removal of the
  window key listeners (360-366) are not modelled. Only the two handlers'
  effect on the shift flag is.
- Rendering is not modelled: the JSX, styling, `Tile`, `generateField`
  labels, thumbnails, and the quantity and refund cells (rma 172, 184, 189;
  the last is floating-point formatting).
- Data fetching is not modelled. This covers `useAdminRegions` and the
  `regions &&` guard that delays rendering until regions have loaded. The
  region list is a parameter.
- The form wiring is not modelled: react-hook-form `Controller`, the price
  inputs of the overrides modal (76-95), the mode radio group, and the
  layered-modal `push`/`pop` that opens the reason screen. The checkbox
  field always holds an array (its default is `[]`), so the `|| []`
  fallback at line 150 is not modelled.
- The header's own sort of the region list (bulk-editor 42-43), which
  mutates the fetched array in place, is not modelled. It only orders the
  filter menu.
- `localeCompare` is replaced by character-code order (`CodeLe`). The two
  agree on lower-case ISO currency codes.
- BulkEditorSession.Step: a session is one product section. The editor
  passes the same shift flag to every section, and each section keeps its
  own state, so sections do not interact.
- React state updates are treated as applied when the handler returns. Each
  handler reads the state of the render it was created in, and every event
  here is handled after the previous one has rendered.
- Assumption about ids: all ids are strings. No cell key (which always
  contains a dash) is the name of a property inherited by an object or a
  boolean, so only own keys read as selected. Loose equality in `travFind`
  behaves as strict equality on strings. `imagesOnReturns` is modelled by
  its truthiness, as a boolean.
- Quantities are mathematical integers; JavaScript numbers are not
  modelled. The counts involved stay far below 2^53.
- RmaSelect.HandleQuantity: the `+` and `-` buttons exist only for lines in
  `toReturn` (rma 164), and the handler would throw on any other line, so
  the model requires the entry to exist.
- `src/components/atoms/save-notification/index.tsx` is not part of this
  model. It is asynchronous toast plumbing.
- `src/domain/pricing/index.tsx` is not part of this model. It is routing
  and a show/hide flag.

=== FILE: bulk_editor.dfy ===
/** One product section of the price-list bulk editor: which price cells are
    selected for editing, the amounts typed but not yet saved, the amount
    shown in the selected cells, and how each cell's displayed amount is
    resolved.

    The section's React state is three values: `activeFields` (the selected
    cells), `priceChanges` (cell key to typed amount) and `currentEditAmount`
    (the text shown in every selected cell). Each handler is a pure
    transition from one `SectionState` to the next. */
module BulkEditor {
  import opened JsValues

  /** The state key, and DOM id, of one price cell. */
  type CellKey = string

  /** `getPriceKey`: the variant id and the region id joined by a dash. */
  function PriceKey(variantId: string, regionId: string): (k: CellKey)
    ensures |k| == |variantId| + 1 + |regionId|
    ensures k[|variantId|] == '-'
  {
    variantId + "-" + regionId
  }

  /** Reads a cell key back into a variant id and a region id by splitting
      at the first dash; `None` when the key holds no dash. */
  function SplitKey(k: CellKey): (r: Option<(string, string)>)
    ensures r.None? <==> '-' !in k
    ensures r.Some? ==> '-' !in r.value.0 && PriceKey(r.value.0, r.value.1) == k
  {
    if |k| == 0 then None
    else if k[0] == '-' then Some(("", k[1..]))
    else
      assert k == [k[0]] + k[1..];
      match SplitKey(k[1..])
      case None => None
      case Some((v, reg)) =>
        assert PriceKey([k[0]] + v, reg) == [k[0]] + PriceKey(v, reg);
        Some(([k[0]] + v, reg))
  }

  /** A key built from a dash-free variant id splits back into the ids it
      was built from. */
  lemma {:induction false} SplitPriceKey(variantId: string, regionId: string)
    requires '-' !in variantId
    ensures SplitKey(PriceKey(variantId, regionId)) == Some((variantId, regionId))
  {
    var k := PriceKey(variantId, regionId);
    if |variantId| == 0 {
      assert k == ['-'] + regionId;
      assert k[1..] == regionId;
    } else {
      assert k[1..] == PriceKey(variantId[1..], regionId);
      SplitPriceKey(variantId[1..], regionId);
      assert [variantId[0]] + variantId[1..] == variantId;
    }
  }

  /** Distinct cells get distinct keys as long as variant ids hold no dash
      (the platform's ids are prefixed with an underscore, not a dash). */
  lemma PriceKeyInjective(v1: string, r1: string, v2: string, r2: string)
    requires '-' !in v1 && '-' !in v2
    requires PriceKey(v1, r1) == PriceKey(v2, r2)
    ensures v1 == v2 && r1 == r2
  {
    SplitPriceKey(v1, r1);
    SplitPriceKey(v2, r2);
  }

  /** Without that assumption two different cells can share a key. */
  lemma DashedIdsCollide()
    ensures exists v1, r1, v2, r2 :: v1 != v2 && PriceKey(v1, r1) == PriceKey(v2, r2)
  {
    assert PriceKey("a-b", "c") == PriceKey("a", "b-c");
  }

  /** A stored price: the region it belongs to (`null` for a price that is
      tied to a currency only) and its amount in minor units. */
  datatype MoneyAmount = MoneyAmount(regionId: Option<string>, amount: int)

  datatype Variant = Variant(id: string, prices: seq<MoneyAmount>)

  datatype Product = Product(variants: seq<Variant>)

  /** The value held in the `activeFields` state. Normally it is an object
      whose keys are the selected cells (every value is `true`). A
      shift-click on a selected cell stores the boolean `true` instead. */
  datatype ActiveFields = KeyObject(keys: set<CellKey>) | BareTrue

  /** `Object.keys(activeFields)`: a boolean has no own keys. */
  function ActiveKeys(a: ActiveFields): set<CellKey> {
    match a
    case KeyObject(ks) => ks
    case BareTrue => {}
  }

  /** `isActive`: whether `activeFields[k]` is truthy. Every cell key holds a
      dash, and no property inherited from `Object.prototype` or
      `Boolean.prototype` has a dash in its name, so only own keys count. */
  predicate IsActive(a: ActiveFields, k: CellKey)
    ensures IsActive(a, k) ==> a.KeyObject?
    ensures a.KeyObject? ==> (IsActive(a, k) <==> k in a.keys)
  {
    k in ActiveKeys(a)
  }

  datatype SectionState = SectionState(
    active: ActiveFields,
    priceChanges: map<CellKey, string>,
    currentEditAmount: Option<string>)

  /** The section's state when it mounts: nothing selected, nothing typed. */
  const InitialSection := SectionState(KeyObject({}), map[], None)

  /** `toggleActive`, as written: selecting an unselected cell adds it to
      the selection; "deselecting" a selected cell replaces the whole
      selection with the boolean stored under that cell's key, so that
      afterwards no cell reads as selected. */
  function ToggleActive(a: ActiveFields, k: CellKey): (r: ActiveFields)
    ensures !IsActive(a, k) ==> ActiveKeys(r) == ActiveKeys(a) + {k}
    ensures IsActive(a, k) ==> forall k' :: !IsActive(r, k')
  {
    if IsActive(a, k) then BareTrue
    else KeyObject(ActiveKeys(a) + {k})
  }

  /** The deselection drops every other selected cell, not only the one
      clicked. */
  lemma ShiftClickOnActiveDropsOthers()
    ensures exists a, k, other :: other != k && IsActive(a, k) && IsActive(a, other) &&
                                  !IsActive(ToggleActive(a, k), other)
  {
    var a := KeyObject({"v1-r1", "v2-r1"});
    assert IsActive(a, "v1-r1") && IsActive(a, "v2-r1");
    assert !IsActive(ToggleActive(a, "v1-r1"), "v2-r1");
  }

  /** `toggleActive` as its `delete` evidently intends: flip the clicked
      cell and leave every other cell as it was. */
  function ToggleActiveFixed(a: ActiveFields, k: CellKey): (r: ActiveFields)
    ensures IsActive(r, k) <==> !IsActive(a, k)
    ensures forall k' :: k' != k ==> (IsActive(r, k') <==> IsActive(a, k'))
  {
    if IsActive(a, k) then KeyObject(ActiveKeys(a) - {k})
    else KeyObject(ActiveKeys(a) + {k})
  }

  /** Shift-clicking the same cell twice restores the selection. */
  lemma ToggleActiveFixedTwice(a: ActiveFields, k: CellKey)
    ensures ActiveKeys(ToggleActiveFixed(ToggleActiveFixed(a, k), k)) == ActiveKeys(a)
  {
  }

  /** `onPriceInputClick` (the focus and blur calls left out): with shift
      held the clicked cell is toggled; without it the clicked cell becomes
      the only selected cell and the shared edit amount is cleared. Typed
      amounts are never touched. */
  function OnPriceInputClick(s: SectionState, shiftDown: bool, variantId: string, regionId: string)
    : (r: SectionState)
    ensures !shiftDown ==> ActiveKeys(r.active) == {PriceKey(variantId, regionId)}
    ensures !shiftDown ==> r.currentEditAmount == None
    ensures shiftDown ==> r.currentEditAmount == s.currentEditAmount
    ensures shiftDown && !IsActive(s.active, PriceKey(variantId, regionId)) ==>
              ActiveKeys(r.active) == ActiveKeys(s.active) + {PriceKey(variantId, regionId)}
    ensures shiftDown && IsActive(s.active, PriceKey(variantId, regionId)) ==>
              forall k :: !IsActive(r.active, k)
    ensures r.priceChanges == s.priceChanges
  {
    var key := PriceKey(variantId, regionId);
    if shiftDown then s.(active := ToggleActive(s.active, key))
    else SectionState(KeyObject({key}), s.priceChanges, None)
  }

  /** `onAmountChange`: the typed amount is recorded for every selected
      cell (whichever cell it was typed into) and becomes the amount shown
      in the selected cells. */
  function OnAmountChange(s: SectionState, variantId: string, regionId: string, amount: string)
    : (r: SectionState)
    ensures r.active == s.active
    ensures r.currentEditAmount == Some(amount)
    ensures forall k :: IsActive(s.active, k) ==> k in r.priceChanges && r.priceChanges[k] == amount
    ensures forall k :: !IsActive(s.active, k) ==> (k in r.priceChanges <==> k in s.priceChanges)
    ensures forall k :: !IsActive(s.active, k) && k in s.priceChanges ==>
              r.priceChanges[k] == s.priceChanges[k]
  {
    var written := map k | k in ActiveKeys(s.active) :: amount;
    SectionState(s.active, s.priceChanges + written, Some(amount))
  }

  /** The keys `onHeaderClick` sets: one per variant, in the clicked
      region's column. */
  function ColumnKeys(variants: seq<Variant>, regionId: string): (ks: set<CellKey>)
    ensures forall i :: 0 <= i < |variants| ==> PriceKey(variants[i].id, regionId) in ks
    ensures forall k :: k in ks ==>
              exists i :: 0 <= i < |variants| && k == PriceKey(variants[i].id, regionId)
  {
    if |variants| == 0 then {}
    else
      var rest := ColumnKeys(variants[1..], regionId);
      assert forall k :: k in rest ==>
               exists i :: 1 <= i < |variants| && k == PriceKey(variants[i].id, regionId) by {
        forall k | k in rest
          ensures exists i :: 1 <= i < |variants| && k == PriceKey(variants[i].id, regionId)
        {
          var j :| 0 <= j < |variants[1..]| && k == PriceKey(variants[1..][j].id, regionId);
          assert k == PriceKey(variants[j + 1].id, regionId);
        }
      }
      {PriceKey(variants[0].id, regionId)} + rest
  }

  /** `onHeaderClick` (the focus call left out): the whole column of the
      clicked region becomes the selection and the shared edit amount is
      cleared. Reading the first variant's id throws when the product has
      no variants, before any state is set. */
  function OnHeaderClick(s: SectionState, product: Product, regionId: string)
    : (r: Outcome<SectionState>)
    ensures r.ThrewTypeError? <==> |product.variants| == 0
    ensures r.Returned? ==> r.value.priceChanges == s.priceChanges
    ensures r.Returned? ==> r.value.currentEditAmount == None
    ensures r.Returned? ==> forall i :: 0 <= i < |product.variants| ==>
              IsActive(r.value.active, PriceKey(product.variants[i].id, regionId))
    ensures r.Returned? ==> forall k :: IsActive(r.value.active, k) ==>
              exists i :: 0 <= i < |product.variants| && k == PriceKey(product.variants[i].id, regionId)
  {
    if |product.variants| == 0 then ThrewTypeError
    else Returned(SectionState(KeyObject(ColumnKeys(product.variants, regionId)), s.priceChanges, None))
  }

  /** With dash-free variant ids, a header click selects a cell exactly when
      it lies in the clicked column and belongs to one of the product's
      variants. */
  lemma HeaderClickSelectsExactlyTheColumn(s: SectionState, product: Product, regionId: string,
                                           variantId: string, cellRegion: string)
    requires |product.variants| > 0
    requires '-' !in variantId
    requires forall i :: 0 <= i < |product.variants| ==> '-' !in product.variants[i].id
    ensures IsActive(OnHeaderClick(s, product, regionId).value.active, PriceKey(variantId, cellRegion))
            <==> cellRegion == regionId &&
                 exists i :: 0 <= i < |product.variants| && product.variants[i].id == variantId
  {
    var a := OnHeaderClick(s, product, regionId).value.active;
    var k := PriceKey(variantId, cellRegion);
    if IsActive(a, k) {
      var i :| 0 <= i < |product.variants| && k == PriceKey(product.variants[i].id, regionId);
      PriceKeyInjective(variantId, cellRegion, product.variants[i].id, regionId);
    }
  }

  /** What a price input shows: text typed by the user, a stored amount, or
      nothing. */
  datatype Shown = Text(text: string) | Cents(amount: int) | Blank

  /** The first stored price of the variant for the region
      (`variant.prices.find`). */
  function CommittedPrice(variant: Variant, regionId: string): (c: Option<MoneyAmount>)
    ensures c.None? <==> forall i :: 0 <= i < |variant.prices| ==> variant.prices[i].regionId != Some(regionId)
    ensures c.Some? ==> exists i :: 0 <= i < |variant.prices| && variant.prices[i] == c.value &&
                                    c.value.regionId == Some(regionId) &&
                                    forall j :: 0 <= j < i ==> variant.prices[j].regionId != Some(regionId)
  {
    Find(variant.prices, (p: MoneyAmount) => p.regionId == Some(regionId))
  }

  /** The amount a cell shows: a selected cell shows the shared edit amount
      (even when there is none); otherwise a non-empty typed amount wins;
      otherwise the first stored price for the cell's region. */
  function DisplayAmount(s: SectionState, variant: Variant, regionId: string): (d: Shown)
    ensures IsActive(s.active, PriceKey(variant.id, regionId)) ==>
              (d == Blank <==> s.currentEditAmount == None) &&
              (s.currentEditAmount.Some? ==> d == Text(s.currentEditAmount.value))
    ensures !IsActive(s.active, PriceKey(variant.id, regionId)) && d.Text? ==>
              PriceKey(variant.id, regionId) in s.priceChanges &&
              s.priceChanges[PriceKey(variant.id, regionId)] == d.text && Truthy(d.text)
    ensures d.Cents? ==>
              !IsActive(s.active, PriceKey(variant.id, regionId)) &&
              !(PriceKey(variant.id, regionId) in s.priceChanges &&
                Truthy(s.priceChanges[PriceKey(variant.id, regionId)])) &&
              exists i :: 0 <= i < |variant.prices| && variant.prices[i].regionId == Some(regionId) &&
                          variant.prices[i].amount == d.amount &&
                          forall j :: 0 <= j < i ==> variant.prices[j].regionId != Some(regionId)
    ensures !IsActive(s.active, PriceKey(variant.id, regionId)) && d == Blank ==>
              forall i :: 0 <= i < |variant.prices| ==> variant.prices[i].regionId != Some(regionId)
    ensures !IsActive(s.active, PriceKey(variant.id, regionId)) && PriceKey(variant.id, regionId) in s.priceChanges &&
            Truthy(s.priceChanges[PriceKey(variant.id, regionId)]) ==>
              d == Text(s.priceChanges[PriceKey(variant.id, regionId)])
    ensures !IsActive(s.active, PriceKey(variant.id, regionId)) &&
            !(PriceKey(variant.id, regionId) in s.priceChanges && Truthy(s.priceChanges[PriceKey(variant.id, regionId)])) &&
            (exists i :: 0 <= i < |variant.prices| && variant.prices[i].regionId == Some(regionId)) ==>
              d.Cents?
  {
    var key := PriceKey(variant.id, regionId);
    if IsActive(s.active, key) then
      match s.currentEditAmount
      case Some(t) => Text(t)
      case None => Blank
    else if key in s.priceChanges && Truthy(s.priceChanges[key]) then Text(s.priceChanges[key])
    else match CommittedPrice(variant, regionId)
      case Some(p) => Cents(p.amount)
      case None => Blank
  }

  /** Typing once shows the amount in every selected cell. */
  lemma TypedAmountShowsInEverySelectedCell(s: SectionState, typedVariant: string, typedRegion: string,
                                            amount: string, variant: Variant, regionId: string)
    requires IsActive(s.active, PriceKey(variant.id, regionId))
    ensures DisplayAmount(OnAmountChange(s, typedVariant, typedRegion, amount), variant, regionId) == Text(amount)
  {
  }

  /** A non-empty amount typed into a cell stays visible after a plain click
      moves the selection elsewhere, although nothing has been saved. */
  lemma PendingAmountShownAfterDeselection(s: SectionState, amount: string, variant: Variant,
                                           regionId: string, otherVariant: string, otherRegion: string)
    requires IsActive(s.active, PriceKey(variant.id, regionId))
    requires Truthy(amount)
    requires PriceKey(otherVariant, otherRegion) != PriceKey(variant.id, regionId)
    ensures DisplayAmount(
              OnPriceInputClick(OnAmountChange(s, variant.id, regionId, amount), false, otherVariant, otherRegion),
              variant, regionId) == Text(amount)
  {
  }

  /** Clearing the typed amount and moving on shows the stored price again,
      because an empty typed amount is falsy. */
  lemma ClearedAmountFallsBackToStoredPrice(s: SectionState, variant: Variant, regionId: string,
                                            otherVariant: string, otherRegion: string, p: MoneyAmount)
    requires IsActive(s.active, PriceKey(variant.id, regionId))
    requires PriceKey(otherVariant, otherRegion) != PriceKey(variant.id, regionId)
    requires CommittedPrice(variant, regionId) == Some(p)
    ensures DisplayAmount(
              OnPriceInputClick(OnAmountChange(s, variant.id, regionId, ""), false, otherVariant, otherRegion),
              variant, regionId) == Cents(p.amount)
  {
  }
}

=== FILE: bulk_editor_session.dfy ===
/** A bulk-editing session over one product section: the editor's shift
    flag, driven by window key events, together with the section's state,
    driven by clicks and typing. Every event is handled to completion before
    the next one, so a session is a fold of `Step` over its events. */
module BulkEditorSession {
  import opened JsValues
  import opened BulkEditor

  /** The user interactions the editor reacts to. */
  datatype Event =
    | KeyDown(shiftKey: bool)
    | KeyUp(shiftKey: bool)
    | PriceInputClick(variantId: string, regionId: string)
    | AmountChange(variantId: string, regionId: string, amount: string)
    | HeaderClick(regionId: string)

  predicate IsKeyEvent(e: Event) {
    e.KeyDown? || e.KeyUp?
  }

  /** `isShiftDown` in the editor, and the state of one of its sections. */
  datatype Session = Session(shiftDown: bool, section: SectionState)

  /** The editor mounts with shift released and an untouched section. */
  const InitialSession := Session(false, InitialSection)

  /** One event. Both key handlers copy the event's shift flag; a click
      reads the flag as it stands; a header click that throws leaves the
      state as it was. */
  function Step(product: Product, s: Session, e: Event): (r: Session)
    ensures IsKeyEvent(e) ==> r.shiftDown == e.shiftKey && r.section == s.section
    ensures !IsKeyEvent(e) ==> r.shiftDown == s.shiftDown
    ensures r.section.priceChanges.Keys <= s.section.priceChanges.Keys + ActiveKeys(s.section.active)
    ensures forall k :: k in s.section.priceChanges && !IsActive(s.section.active, k) ==>
              k in r.section.priceChanges && r.section.priceChanges[k] == s.section.priceChanges[k]
    ensures forall k :: k in r.section.priceChanges &&
                        (k !in s.section.priceChanges || r.section.priceChanges[k] != s.section.priceChanges[k]) ==>
              e.AmountChange? && IsActive(s.section.active, k) && r.section.priceChanges[k] == e.amount
  {
    match e
    case KeyDown(shift) => s.(shiftDown := shift)
    case KeyUp(shift) => s.(shiftDown := shift)
    case PriceInputClick(v, reg) =>
      s.(section := OnPriceInputClick(s.section, s.shiftDown, v, reg))
    case AmountChange(v, reg, amount) =>
      s.(section := OnAmountChange(s.section, v, reg, amount))
    case HeaderClick(reg) =>
      match OnHeaderClick(s.section, product, reg)
      case Returned(next) => s.(section := next)
      case ThrewTypeError => s
  }

  /** The session after handling `events` in order. */
  function Run(product: Product, s: Session, events: seq<Event>): Session
    decreases |events|
  {
    if |events| == 0 then s else Run(product, Step(product, s, events[0]), events[1..])
  }

  /** The shift flag of the last key event in `events`, or `flag` when there
      is none. */
  function LastShiftKey(events: seq<Event>, flag: bool): bool
    decreases |events|
  {
    if |events| == 0 then flag
    else if IsKeyEvent(events[|events| - 1]) then events[|events| - 1].shiftKey
    else LastShiftKey(events[..|events| - 1], flag)
  }

  /** Looking for the last key event from the front: the first event only
      matters when no later event is a key event. */
  lemma {:induction false} LastShiftKeyFromFront(events: seq<Event>, flag: bool)
    requires |events| > 0
    ensures LastShiftKey(events, flag) ==
            LastShiftKey(events[1..], if IsKeyEvent(events[0]) then events[0].shiftKey else flag)
  {
    var first := if IsKeyEvent(events[0]) then events[0].shiftKey else flag;
    if |events| == 1 {
      assert events[1..] == [];
    } else {
      var last := |events| - 1;
      assert events[1..][..|events[1..]| - 1] == events[..last][1..];
      if !IsKeyEvent(events[last]) {
        LastShiftKeyFromFront(events[..last], flag);
        assert events[..last][0] == events[0];
      }
    }
  }

  /** After any sequence of events the shift flag is the one carried by the
      last key event, or the starting flag if there was no key event. */
  lemma {:induction false} ShiftFlagTracksLastKeyEvent(product: Product, s: Session, events: seq<Event>)
    ensures Run(product, s, events).shiftDown == LastShiftKey(events, s.shiftDown)
    decreases |events|
  {
    if |events| > 0 {
      LastShiftKeyFromFront(events, s.shiftDown);
      ShiftFlagTracksLastKeyEvent(product, Step(product, s, events[0]), events[1..]);
    }
  }

  /** Every cell that is selected at some point of the session. */
  ghost function EverActive(product: Product, s: Session, events: seq<Event>): set<CellKey>
    decreases |events|
  {
    ActiveKeys(s.section.active) +
      (if |events| == 0 then {} else EverActive(product, Step(product, s, events[0]), events[1..]))
  }

  /** An amount is only ever recorded for a cell that was selected at the
      time: every key with a typed amount had one before the session or was
      selected at some point during it. */
  lemma {:induction false} TypedAmountsComeFromSelectedCells(product: Product, s: Session, events: seq<Event>)
    ensures Run(product, s, events).section.priceChanges.Keys <=
            s.section.priceChanges.Keys + EverActive(product, s, events)
    decreases |events|
  {
    if |events| > 0 {
      TypedAmountsComeFromSelectedCells(product, Step(product, s, events[0]), events[1..]);
    }
  }

  /** From a fresh editor, typed amounts exist only for cells that were
      selected at some point. */
  lemma FreshSessionTypesOnlyIntoSelectedCells(product: Product, events: seq<Event>)
    ensures Run(product, InitialSession, events).section.priceChanges.Keys <=
            EverActive(product, InitialSession, events)
  {
    TypedAmountsComeFromSelectedCells(product, InitialSession, events);
  }
}

=== FILE: js_values.dfy ===
/** JavaScript values as the admin screens use them: optional values
    (`null`/`undefined` versus present), the outcome of a handler that may
    throw, string truthiness, and the array methods the screens call
    (`find`, `some` and `filter`). */
module JsValues {

  /** A present value, or `null`/`undefined`. */
  datatype Option<+T> = None | Some(value: T)

  /** How an event handler ends: it returns normally with the new state, or
      it throws a `TypeError` (a property read on `undefined`) before
      touching any state. */
  datatype Outcome<+T> = Returned(value: T) | ThrewTypeError

  /** A string is truthy exactly when it is not empty. */
  predicate Truthy(s: string) {
    s != ""
  }

  /** An optional string used as a condition: `null`, `undefined` and `""`
      are falsy, every other string is truthy. */
  predicate TruthyOpt(o: Option<string>) {
    o.Some? && Truthy(o.value)
  }

  /** The index `Array.prototype.find` stops at: the first element
      satisfying `p`, if there is one. */
  function FindIndex<T>(s: seq<T>, p: T -> bool): (r: Option<nat>)
    ensures r.None? <==> forall i :: 0 <= i < |s| ==> !p(s[i])
    ensures r.Some? ==> r.value < |s| && p(s[r.value])
    ensures r.Some? ==> forall j :: 0 <= j < r.value ==> !p(s[j])
  {
    if |s| == 0 then None
    else if p(s[0]) then Some(0)
    else match FindIndex(s[1..], p)
      case None => None
      case Some(i) => Some(i + 1)
  }

  /** `Array.prototype.find`: the first element satisfying `p`. */
  function Find<T>(s: seq<T>, p: T -> bool): (r: Option<T>)
    ensures r.None? <==> forall i :: 0 <= i < |s| ==> !p(s[i])
    ensures r.Some? ==> exists i :: 0 <= i < |s| && s[i] == r.value && p(s[i]) &&
                                    forall j :: 0 <= j < i ==> !p(s[j])
  {
    match FindIndex(s, p)
    case None => None
    case Some(i) => Some(s[i])
  }

  /** `Array.prototype.some`: whether any element satisfies `p`. */
  function Any<T>(s: seq<T>, p: T -> bool): (r: bool)
    ensures r <==> exists i :: 0 <= i < |s| && p(s[i])
  {
    if |s| == 0 then false else p(s[0]) || Any(s[1..], p)
  }

  /** `Array.prototype.filter`: the elements satisfying `p`, in order. */
  function Filter<T>(s: seq<T>, p: T -> bool): (r: seq<T>)
    ensures |r| <= |s|
    ensures forall i :: 0 <= i < |r| ==> r[i] in s && p(r[i])
    ensures forall i :: 0 <= i < |s| && p(s[i]) ==> s[i] in r
    ensures |r| == 0 <==> forall i :: 0 <= i < |s| ==> !p(s[i])
  {
    if |s| == 0 then []
    else
      var rest := Filter(s[1..], p);
      assert forall i :: 1 <= i < |s| ==> s[i] == s[1..][i - 1];
      (if p(s[0]) then [s[0]] else []) + rest
  }

  /** `filter` keeps every occurrence of a kept value and no occurrence of
      a dropped one: it neither duplicates nor merges elements. */
  lemma {:induction false} FilterCount<T>(s: seq<T>, p: T -> bool, x: T)
    ensures multiset(Filter(s, p))[x] == if p(x) then multiset(s)[x] else 0
  {
    if |s| > 0 {
      assert s == [s[0]] + s[1..];
      FilterCount(s[1..], p, x);
    }
  }

  /** Filtering a concatenation filters each part: kept elements keep their
      relative order. */
  lemma {:induction false} FilterAppend<T>(a: seq<T>, b: seq<T>, p: T -> bool)
    ensures Filter(a + b, p) == Filter(a, p) + Filter(b, p)
  {
    if |a| > 0 {
      assert (a + b)[1..] == a[1..] + b;
      FilterAppend(a[1..], b, p);
    } else {
      assert a + b == b;
    }
  }
}

=== FILE: price_overrides.dfy ===
/** The variant checkboxes of the price-overrides modal. The form field
    `variants` holds a list of variant ids; each checkbox knows its variant
    id and the variant's position in the modal's variant list, and on change
    it writes at that position in the field's list and then drops the empty
    slots. */
module PriceOverrides {
  import opened JsValues

  /** The field's list: a variant id or `null`/`undefined` per slot. */
  type FieldValue = seq<Option<string>>

  /** `checked`: some slot holds exactly this id. */
  function IsChecked(value: FieldValue, id: string): (c: bool)
    ensures c <==> Some(id) in value
  {
    Any(value, (v: Option<string>) => v == Some(id))
  }

  /** `valueCopy[index] = x` on a copy of the list. Writing past the end
      grows the array; the slots skipped over are holes, read as
      `undefined`. */
  function WriteAt(value: FieldValue, index: nat, x: Option<string>): (w: FieldValue)
    ensures |w| == if index < |value| then |value| else index + 1
    ensures w[index] == x
    ensures forall i :: 0 <= i < |value| && i != index ==> w[i] == value[i]
    ensures forall i :: |value| <= i < |w| && i != index ==> w[i] == None
  {
    if index < |value| then value[index := x]
    else value + seq(index - |value|, _ => None) + [x]
  }

  /** `.filter(Boolean)`: keeps the slots holding a non-empty id. */
  function Compact(xs: FieldValue): (r: FieldValue)
    ensures |r| <= |xs|
    ensures forall i :: 0 <= i < |r| ==> TruthyOpt(r[i]) && r[i] in xs
    ensures forall i :: 0 <= i < |xs| && TruthyOpt(xs[i]) ==> xs[i] in r
    ensures |xs| == 1 ==> r == if TruthyOpt(xs[0]) then xs else []
  {
    Filter(xs, TruthyOpt)
  }

  /** Compaction keeps each id as many times as it occurs and drops every
      empty slot. */
  lemma CompactCount(xs: FieldValue, x: Option<string>)
    ensures multiset(Compact(xs))[x] == if TruthyOpt(x) then multiset(xs)[x] else 0
  {
    FilterCount(xs, TruthyOpt, x);
  }

  /** Compaction works slot by slot: the ids it keeps stay in their order. */
  lemma CompactAppend(a: FieldValue, b: FieldValue)
    ensures Compact(a + b) == Compact(a) + Compact(b)
  {
    FilterAppend(a, b, TruthyOpt);
  }

  /** A run of holes compacts to nothing. */
  lemma CompactHoles(n: nat)
    ensures Compact(seq(n, _ => None)) == []
  {
  }

  /** The checkbox's `onChange`: write the id (checked) or `null`
      (unchecked) at the checkbox's position, then compact. */
  function OnCheckboxChange(value: FieldValue, id: string, index: nat, checked: bool): (r: FieldValue)
    ensures forall i :: 0 <= i < |r| ==> r[i].Some? && Truthy(r[i].value)
    ensures checked && Truthy(id) ==> IsChecked(r, id)
    ensures |r| <= if index < |value| then |value| else index + 1
  {
    var w := WriteAt(value, index, if checked then Some(id) else None);
    assert checked ==> w[index] == Some(id);
    Compact(w)
  }

  /** A change inside the list keeps the ids at other positions in their
      relative order: the result is the compacted slots before the
      position, the new slot, and the compacted slots after it. */
  lemma ChangeInsideListKeepsOthersInOrder(value: FieldValue, id: string, index: nat, checked: bool)
    requires index < |value|
    ensures OnCheckboxChange(value, id, index, checked) ==
            Compact(value[..index]) + Compact([if checked then Some(id) else None]) + Compact(value[index + 1..])
  {
    var x := if checked then Some(id) else None;
    assert WriteAt(value, index, x) == value[..index] + [x] + value[index + 1..];
    FilterAppend(value[..index] + [x], value[index + 1..], TruthyOpt);
    FilterAppend(value[..index], [x], TruthyOpt);
  }

  /** A change at or past the end of the list keeps every id already there
      and appends the new slot, the holes in between compacting away. */
  lemma ChangePastEndAppends(value: FieldValue, id: string, index: nat, checked: bool)
    requires index >= |value|
    ensures OnCheckboxChange(value, id, index, checked) ==
            Compact(value) + Compact([if checked then Some(id) else None])
  {
    var x := if checked then Some(id) else None;
    var holes: FieldValue := seq(index - |value|, _ => None);
    assert WriteAt(value, index, x) == value + holes + [x];
    FilterAppend(value + holes, [x], TruthyOpt);
    FilterAppend(value, holes, TruthyOpt);
    CompactHoles(index - |value|);
  }

  /** Unchecking empties the slot at the checkbox's position, whatever id
      sits there, and keeps every other slot. */
  lemma UncheckDropsThePosition(value: FieldValue, id: string, index: nat)
    ensures index < |value| ==>
              OnCheckboxChange(value, id, index, false) == Compact(value[..index]) + Compact(value[index + 1..])
    ensures index >= |value| ==> OnCheckboxChange(value, id, index, false) == Compact(value)
  {
    var hole: FieldValue := [None];
    assert Compact(hole) == [];
    if index < |value| {
      ChangeInsideListKeepsOthersInOrder(value, id, index, false);
      assert Compact(value[..index]) + Compact(hole) == Compact(value[..index]);
    } else {
      ChangePastEndAppends(value, id, index, false);
      assert Compact(value) + Compact(hole) == Compact(value);
    }
  }

  /** Compacting a list with no empty slot leaves it as it is. */
  lemma {:induction false} CompactOfCompacted(xs: FieldValue)
    requires forall i :: 0 <= i < |xs| ==> TruthyOpt(xs[i])
    ensures Compact(xs) == xs
  {
    if |xs| > 0 {
      CompactOfCompacted(xs[1..]);
    }
  }

  /** The list the field holds after any change has no empty slot, so
      unchecking a box whose variant position is at or past the number of
      checked ids changes nothing: the box stays checked. */
  lemma UncheckPastTheEndChangesNothing(value: FieldValue, id: string, index: nat)
    requires forall i :: 0 <= i < |value| ==> TruthyOpt(value[i])
    requires index >= |value|
    ensures OnCheckboxChange(value, id, index, false) == value
  {
    UncheckDropsThePosition(value, id, index);
    CompactOfCompacted(value);
  }

  /** With only the second variant checked, its id sits at position 0 of
      the compacted list, so unchecking it (position 1) changes nothing and
      the box stays checked. */
  lemma UncheckCanLeaveVariantChecked()
    ensures OnCheckboxChange([], "variant_b", 1, true) == [Some("variant_b")]
    ensures IsChecked(OnCheckboxChange([Some("variant_b")], "variant_b", 1, false), "variant_b")
  {
  }

  /** Checking the first variant then overwrites the second variant's id. */
  lemma CheckCanUncheckAnotherVariant()
    ensures !IsChecked(OnCheckboxChange([Some("variant_b")], "variant_a", 0, true), "variant_b")
  {
  }

  /** The slots of `value` not holding `id`. */
  function Without(value: FieldValue, id: string): (r: FieldValue)
    ensures forall i :: 0 <= i < |r| ==> r[i] != Some(id) && r[i] in value
    ensures forall i :: 0 <= i < |value| && value[i] != Some(id) ==> value[i] in r
  {
    Filter(value, (v: Option<string>) => v != Some(id))
  }

  /** The change the checkbox evidently intends, independent of positions:
      drop the id, add it back when checked, compact. */
  function OnCheckboxChangeFixed(value: FieldValue, id: string, checked: bool): (r: FieldValue)
    ensures forall i :: 0 <= i < |r| ==> r[i].Some? && Truthy(r[i].value)
    ensures Truthy(id) ==> (IsChecked(r, id) <==> checked)
    ensures forall other :: other != id && Truthy(other) ==> (IsChecked(r, other) <==> IsChecked(value, other))
  {
    var kept := Without(value, id) + (if checked then [Some(id)] else []);
    var r := Compact(kept);
    assert forall other :: other != id && Some(other) in value ==> Some(other) in kept;
    assert forall other :: Some(other) in kept && other != id ==> Some(other) in value;
    assert checked && Truthy(id) ==> kept[|kept| - 1] == Some(id);
    r
  }
}

=== FILE: region_filter.dfy ===
/** The price columns the bulk editor shows: the selected region ids are
    looked up in the region list, ids with no region are dropped, and the
    regions found are ordered by currency code. */
module RegionFilter {
  import opened JsValues

  datatype Region = Region(id: string, name: string, currencyCode: string)

  /** The order of currency codes: lexicographic by character code. It
      stands for `localeCompare`, which agrees with it on the lower-case
      three-letter codes regions carry. */
  predicate CodeLe(a: string, b: string) {
    |a| == 0 || (|b| > 0 && (a[0] < b[0] || (a[0] == b[0] && CodeLe(a[1..], b[1..]))))
  }

  lemma {:induction false} CodeLeTotal(a: string, b: string)
    ensures CodeLe(a, b) || CodeLe(b, a)
  {
    if |a| > 0 && |b| > 0 && a[0] == b[0] {
      CodeLeTotal(a[1..], b[1..]);
    }
  }

  lemma {:induction false} CodeLeTransitive(a: string, b: string, c: string)
    requires CodeLe(a, b) && CodeLe(b, c)
    ensures CodeLe(a, c)
  {
    if |a| > 0 && a[0] == b[0] && b[0] == c[0] {
      CodeLeTransitive(a[1..], b[1..], c[1..]);
    }
  }

  predicate SortedByCode(rs: seq<Region>) {
    forall i, j :: 0 <= i < j < |rs| ==> CodeLe(rs[i].currencyCode, rs[j].currencyCode)
  }

  /** `regions.find((a) => a.id === id)`. */
  function RegionById(regions: seq<Region>, id: string): (r: Option<Region>)
    ensures r.None? <==> forall i :: 0 <= i < |regions| ==> regions[i].id != id
    ensures r.Some? ==> r.value.id == id &&
                        exists i :: 0 <= i < |regions| && regions[i] == r.value &&
                                    forall j :: 0 <= j < i ==> regions[j].id != id
  {
    Find(regions, (a: Region) => a.id == id)
  }

  /** `ids.map(find).filter((i) => !!i)`: the region of each id, in the
      order of the ids, skipping ids with no region. */
  function ResolveIds(ids: seq<string>, regions: seq<Region>): (rs: seq<Region>)
    ensures |rs| <= |ids|
    ensures forall r :: r in rs ==> r in regions && r.id in ids
    ensures forall r :: r in rs ==> RegionById(regions, r.id) == Some(r)
    ensures |ids| == 1 ==> rs == match RegionById(regions, ids[0]) case None => [] case Some(r) => [r]
    ensures forall id :: id in ids && (exists i :: 0 <= i < |regions| && regions[i].id == id) ==>
              exists r :: r in rs && r.id == id
  {
    if |ids| == 0 then []
    else
      var rest := ResolveIds(ids[1..], regions);
      assert forall id :: id in ids[1..] ==> id in ids;
      assert forall id :: id in ids && id != ids[0] ==> id in ids[1..];
      match RegionById(regions, ids[0])
      case None =>
        assert forall i :: 0 <= i < |regions| ==> regions[i].id != ids[0];
        rest
      case Some(r) => [r] + rest
  }

  /** The regions come in the order of their ids: resolving a list of ids
      part by part resolves the whole. */
  lemma {:induction false} ResolveIdsInIdOrder(a: seq<string>, b: seq<string>, regions: seq<Region>)
    ensures ResolveIds(a + b, regions) == ResolveIds(a, regions) + ResolveIds(b, regions)
  {
    if |a| == 0 {
      assert a + b == b;
    } else {
      assert (a + b)[0] == a[0] && (a + b)[1..] == a[1..] + b;
      ResolveIdsInIdOrder(a[1..], b, regions);
    }
  }

  /** Each id contributes at most one region: a region that is the one
      found for its id appears exactly as often as its id is selected. */
  lemma {:induction false} ResolveIdsOnePerId(ids: seq<string>, regions: seq<Region>, r: Region)
    requires RegionById(regions, r.id) == Some(r)
    ensures multiset(ResolveIds(ids, regions))[r] == multiset(ids)[r.id]
  {
    if |ids| > 0 {
      assert ids == [ids[0]] + ids[1..];
      ResolveIdsOnePerId(ids[1..], regions, r);
      var rest := ResolveIds(ids[1..], regions);
      if r.id == ids[0] {
        assert ResolveIds(ids, regions) == [r] + rest;
      } else {
        assert RegionById(regions, ids[0]) != Some(r);
      }
    }
  }

  /** Inserts `x` before the first region whose code is not below it, so a
      region never overtakes one with an equal code. */
  function InsertByCode(x: Region, rs: seq<Region>): (r: seq<Region>)
    requires SortedByCode(rs)
    ensures SortedByCode(r)
    ensures multiset(r) == multiset(rs) + multiset{x}
  {
    if |rs| == 0 then [x]
    else if CodeLe(x.currencyCode, rs[0].currencyCode) then
      assert forall j :: 0 <= j < |rs| ==> CodeLe(x.currencyCode, rs[j].currencyCode) by {
        forall j | 0 <= j < |rs| ensures CodeLe(x.currencyCode, rs[j].currencyCode) {
          if j > 0 { CodeLeTransitive(x.currencyCode, rs[0].currencyCode, rs[j].currencyCode); }
        }
      }
      [x] + rs
    else
      CodeLeTotal(x.currencyCode, rs[0].currencyCode);
      var tail := InsertByCode(x, rs[1..]);
      assert rs == [rs[0]] + rs[1..];
      assert forall j :: 0 <= j < |tail| ==> CodeLe(rs[0].currencyCode, tail[j].currencyCode) by {
        forall j | 0 <= j < |tail| ensures CodeLe(rs[0].currencyCode, tail[j].currencyCode) {
          assert tail[j] in multiset(tail);
          assert tail[j] == x || tail[j] in rs[1..];
        }
      }
      [rs[0]] + tail
  }

  /** A stable sort by currency code. */
  function SortByCode(rs: seq<Region>): (r: seq<Region>)
    ensures SortedByCode(r)
    ensures multiset(r) == multiset(rs)
  {
    if |rs| == 0 then []
    else
      assert rs == [rs[0]] + rs[1..];
      InsertByCode(rs[0], SortByCode(rs[1..]))
  }

  /** The regions of `rs` whose currency code is `c`, in their order. */
  function WithCode(rs: seq<Region>, c: string): seq<Region> {
    if |rs| == 0 then []
    else (if rs[0].currencyCode == c then [rs[0]] else []) + WithCode(rs[1..], c)
  }

  lemma WithCodeSingle(r: Region, c: string)
    ensures WithCode([r], c) == if r.currencyCode == c then [r] else []
  {
    assert [r][1..] == [];
  }

  lemma {:induction false} WithCodeAppend(a: seq<Region>, b: seq<Region>, c: string)
    ensures WithCode(a + b, c) == WithCode(a, c) + WithCode(b, c)
  {
    if |a| == 0 {
      assert a + b == b;
    } else {
      var h := if a[0].currencyCode == c then [a[0]] else [];
      assert (a + b)[0] == a[0] && (a + b)[1..] == a[1..] + b;
      WithCodeAppend(a[1..], b, c);
      calc {
        WithCode(a + b, c);
        h + WithCode(a[1..] + b, c);
        h + (WithCode(a[1..], c) + WithCode(b, c));
        (h + WithCode(a[1..], c)) + WithCode(b, c);
      }
    }
  }

  /** Two regions with different codes can trade places without changing
      the regions of any one code. */
  lemma PassRegionWithOtherCode(x: Region, head: Region, rest: seq<Region>, tail: seq<Region>, c: string)
    requires x.currencyCode != head.currencyCode
    requires WithCode(tail, c) == WithCode([x] + rest, c)
    ensures WithCode([head] + tail, c) == WithCode([x] + ([head] + rest), c)
  {
  }

  /** Inserting a region puts it ahead of every region with the same code,
      so among the regions with any one code the new one comes first and
      the others keep their order. */
  lemma {:induction false} InsertByCodeStable(x: Region, rs: seq<Region>, c: string)
    requires SortedByCode(rs)
    ensures WithCode(InsertByCode(x, rs), c) == WithCode([x] + rs, c)
  {
    if |rs| > 0 && !CodeLe(x.currencyCode, rs[0].currencyCode) {
      var head, rest := rs[0], rs[1..];
      CodeLeTotal(x.currencyCode, x.currencyCode);
      assert SortedByCode(rest);
      var tail := InsertByCode(x, rest);
      assert InsertByCode(x, rs) == [head] + tail;
      InsertByCodeStable(x, rest, c);
      PassRegionWithOtherCode(x, head, rest, tail, c);
      assert rs == [head] + rest;
    }
  }

  /** `SortByCode` is stable: regions with equal codes keep their input
      order. */
  lemma {:induction false} SortByCodeStable(rs: seq<Region>, c: string)
    ensures WithCode(SortByCode(rs), c) == WithCode(rs, c)
  {
    if |rs| > 0 {
      SortByCodeStable(rs[1..], c);
      InsertByCodeStable(rs[0], SortByCode(rs[1..]), c);
      WithCodeAppend([rs[0]], SortByCode(rs[1..]), c);
      assert rs == [rs[0]] + rs[1..];
      WithCodeAppend([rs[0]], rs[1..], c);
    }
  }

  /** The `activeRegions` the editor hands each product section: exactly
      the regions found for the selected ids (one per id that has a region),
      in ascending order of currency code. */
  function VisibleRegions(ids: seq<string>, regions: seq<Region>): (cols: seq<Region>)
    ensures SortedByCode(cols)
    ensures multiset(cols) == multiset(ResolveIds(ids, regions))
    ensures |cols| <= |ids|
    ensures forall c :: c in cols ==> c in regions && c.id in ids
    ensures forall id :: id in ids && (exists i :: 0 <= i < |regions| && regions[i].id == id) ==>
              exists c :: c in cols && c.id == id
  {
    var found := ResolveIds(ids, regions);
    var sorted := SortByCode(found);
    assert |sorted| == |multiset(sorted)| == |multiset(found)| == |found|;
    assert forall c :: c in sorted <==> c in found by {
      forall c ensures c in sorted <==> c in found {
        assert c in sorted <==> c in multiset(sorted);
        assert c in found <==> c in multiset(found);
      }
    }
    sorted
  }

  /** Regions sharing a currency code appear in the order of their ids in
      the selection. */
  lemma VisibleRegionsKeepSelectionOrder(ids: seq<string>, regions: seq<Region>, c: string)
    ensures WithCode(VisibleRegions(ids, regions), c) == WithCode(ResolveIds(ids, regions), c)
  {
    SortByCodeStable(ResolveIds(ids, regions), c);
  }

  /** The two-region example: ids ["r2", "r1"] with codes "usd" and "eur"
      give the columns EUR then USD, and an unknown id is dropped. */
  lemma ColumnsOrderedByCode()
    ensures VisibleRegions(["r2", "r1", "r9"],
                           [Region("r1", "Europe", "eur"), Region("r2", "US", "usd")])
            == [Region("r1", "Europe", "eur"), Region("r2", "US", "usd")]
  {
    var eu := Region("r1", "Europe", "eur");
    var us := Region("r2", "US", "usd");
    ExampleIdsResolve(eu, us);
    ExampleSortsByCode(eu, us);
  }

  lemma ExampleIdsResolve(eu: Region, us: Region)
    requires eu == Region("r1", "Europe", "eur") && us == Region("r2", "US", "usd")
    ensures ResolveIds(["r2", "r1", "r9"], [eu, us]) == [us, eu]
  {
    var regions := [eu, us];
    var ids: seq<string> := ["r2", "r1", "r9"];
    assert "r1" != "r2" && "r9" != "r1" && "r9" != "r2";
    assert RegionById(regions, "r9") == None;
    assert RegionById(regions, "r1") == Some(eu);
    var found := RegionById(regions, "r2");
    assert regions[1].id == "r2";
    assert found.Some?;
    var i :| 0 <= i < |regions| && regions[i] == found.value && regions[i].id == "r2";
    assert i == 1;
    assert ids[1..] == ["r1", "r9"] && ids[1..][1..] == ["r9"] && ids[1..][1..][1..] == [];
    assert ResolveIds(["r9"], regions) == [];
    assert ResolveIds(["r1", "r9"], regions) == [eu];
  }

  lemma ExampleSortsByCode(eu: Region, us: Region)
    requires eu == Region("r1", "Europe", "eur") && us == Region("r2", "US", "usd")
    ensures SortByCode([us, eu]) == [eu, us]
  {
  }
}

=== FILE: rma_select.dfy ===
/** The product table of the return / swap / claim screens: which order
    lines are offered for return, and the map from line-item id to the
    return being prepared for it (quantity, reason, note, images). */
module RmaSelect {
  import opened JsValues

  /** The `images` field of an entry: absent, `null`, or a list. */
  datatype Images = Missing | NullImages | ImageList(urls: seq<string>)

  /** One entry of `toReturn`. `quantity` is `None` when the entry has no
      quantity field at all, which happens when a reason is set for a line
      that was not selected. */
  datatype ReturnEntry = ReturnEntry(quantity: Option<int>, reasonId: Option<string>, note: string, images: Images)

  /** `toReturn`, keyed by line-item id. */
  type ReturnMap = map<string, ReturnEntry>

  datatype LineItem = LineItem(
    id: string,
    quantity: int,
    returnedQuantity: int,
    swapId: Option<string>,
    claimOrderId: Option<string>)

  /** A swap or a claim of the order, possibly canceled. */
  datatype OrderChange = OrderChange(id: string, canceledAt: Option<string>)

  datatype Order = Order(swaps: seq<OrderChange>, claims: seq<OrderChange>)

  /** How many units of the line are still returnable. */
  function Remaining(item: LineItem): int {
    item.quantity - item.returnedQuantity
  }

  /** `entry?.quantity || 0`. */
  function QuantityOrZero(e: ReturnEntry): int {
    match e.quantity
    case Some(q) => q
    case None => 0
  }

  /** `handleQuantity`: the minus and plus buttons. Stepping up from the
      returnable quantity and stepping down from one do nothing; any other
      step adds `change` to the entry's quantity and touches nothing else.
      The buttons exist only for selected lines, so the entry is there. */
  function HandleQuantity(toReturn: ReturnMap, change: int, item: LineItem): (r: ReturnMap)
    requires item.id in toReturn
    ensures r.Keys == toReturn.Keys
    ensures forall id :: id in toReturn && id != item.id ==> r[id] == toReturn[id]
    ensures change > 0 && toReturn[item.id].quantity == Some(Remaining(item)) ==> r == toReturn
    ensures change < 0 && toReturn[item.id].quantity == Some(1) ==> r == toReturn
    ensures !(change > 0 && toReturn[item.id].quantity == Some(Remaining(item))) &&
            !(change < 0 && toReturn[item.id].quantity == Some(1)) ==>
              r[item.id].quantity == Some(QuantityOrZero(toReturn[item.id]) + change) &&
              r[item.id].reasonId == toReturn[item.id].reasonId &&
              r[item.id].note == toReturn[item.id].note &&
              r[item.id].images == toReturn[item.id].images
  {
    var e := toReturn[item.id];
    if (e.quantity == Some(Remaining(item)) && change > 0) || (e.quantity == Some(1) && change < 0) then
      toReturn
    else
      toReturn[item.id := e.(quantity := Some(QuantityOrZero(e) + change))]
  }

  /** With the buttons' steps of one, a quantity between one and the
      returnable quantity stays there. */
  lemma QuantityStepStaysInRange(toReturn: ReturnMap, change: int, item: LineItem)
    requires item.id in toReturn
    requires change == 1 || change == -1
    requires toReturn[item.id].quantity.Some?
    requires 1 <= toReturn[item.id].quantity.value <= Remaining(item)
    ensures HandleQuantity(toReturn, change, item)[item.id].quantity.Some?
    ensures 1 <= HandleQuantity(toReturn, change, item)[item.id].quantity.value <= Remaining(item)
  {
  }

  /** The entry a newly selected line starts with: everything returnable,
      no reason, an empty note, and an empty image list only when the
      screen collects images. */
  function DefaultEntry(item: LineItem, imagesOnReturns: bool): (e: ReturnEntry)
    ensures e.quantity == Some(Remaining(item))
    ensures e.reasonId == None && e.note == ""
    ensures e.images == if imagesOnReturns then ImageList([]) else NullImages
  {
    ReturnEntry(Some(Remaining(item)), None, "", if imagesOnReturns then ImageList([]) else NullImages)
  }

  /** `handleReturnToggle`: a selected line is dropped from the map; an
      unselected one is added with the default entry. */
  function HandleReturnToggle(toReturn: ReturnMap, item: LineItem, imagesOnReturns: bool): (r: ReturnMap)
    ensures item.id in toReturn ==> r.Keys == toReturn.Keys - {item.id}
    ensures item.id !in toReturn ==> r.Keys == toReturn.Keys + {item.id}
    ensures item.id !in toReturn ==>
              r[item.id].quantity == Some(Remaining(item)) && r[item.id].reasonId == None &&
              r[item.id].note == "" &&
              r[item.id].images == (if imagesOnReturns then ImageList([]) else NullImages)
    ensures forall id :: id in toReturn && id != item.id ==> r[id] == toReturn[id]
  {
    if item.id in toReturn then map id | id in toReturn && id != item.id :: toReturn[id]
    else toReturn[item.id := DefaultEntry(item, imagesOnReturns)]
  }

  /** Selecting and then deselecting a line leaves the map as it was. */
  lemma ToggleTwiceRestoresUnselected(toReturn: ReturnMap, item: LineItem, imagesOnReturns: bool)
    requires item.id !in toReturn
    ensures HandleReturnToggle(HandleReturnToggle(toReturn, item, imagesOnReturns), item, imagesOnReturns)
            == toReturn
  {
  }

  /** Deselecting and then selecting a line again forgets its quantity,
      reason and note: it comes back as the default entry. */
  lemma ToggleTwiceResetsSelected(toReturn: ReturnMap, item: LineItem, imagesOnReturns: bool)
    requires item.id in toReturn
    ensures HandleReturnToggle(HandleReturnToggle(toReturn, item, imagesOnReturns), item, imagesOnReturns)
            == toReturn[item.id := DefaultEntry(item, imagesOnReturns)]
  {
  }

  /** `setReturnReason`: the reason and note of the line's entry are
      replaced and its other fields kept. For a line with no entry the
      spread of `undefined` contributes nothing, so the new entry has
      neither a quantity nor images. */
  function SetReturnReason(toReturn: ReturnMap, reason: Option<string>, note: string, id: string): (r: ReturnMap)
    ensures r.Keys == toReturn.Keys + {id}
    ensures r[id].reasonId == reason && r[id].note == note
    ensures id in toReturn ==> r[id].quantity == toReturn[id].quantity && r[id].images == toReturn[id].images
    ensures id !in toReturn ==> r[id].quantity == None && r[id].images == Missing
    ensures forall other :: other in toReturn && other != id ==> r[other] == toReturn[other]
  {
    var base := if id in toReturn then toReturn[id] else ReturnEntry(None, None, "", Missing);
    toReturn[id := base.(reasonId := reason, note := note)]
  }

  /** `travFind`: whether some record of `col` has id `id` and is
      canceled (`col.filter((f) => f.id == id && f.canceled_at).length > 0`). */
  function TravFind(col: seq<OrderChange>, id: string): (found: bool)
    ensures found <==> exists i :: 0 <= i < |col| && col[i].id == id && TruthyOpt(col[i].canceledAt)
  {
    |Filter(col, (f: OrderChange) => f.id == id && TruthyOpt(f.canceledAt))| > 0
  }

  /** `isLineItemCanceled`: a line that came from a swap is canceled when
      that swap is; otherwise one that came from a claim is canceled when
      that claim is; any other line is not canceled. */
  function IsLineItemCanceled(order: Order, item: LineItem): (c: bool)
    ensures TruthyOpt(item.swapId) ==>
              (c <==> exists i :: 0 <= i < |order.swaps| && order.swaps[i].id == item.swapId.value &&
                                  TruthyOpt(order.swaps[i].canceledAt))
    ensures !TruthyOpt(item.swapId) && TruthyOpt(item.claimOrderId) ==>
              (c <==> exists i :: 0 <= i < |order.claims| && order.claims[i].id == item.claimOrderId.value &&
                                  TruthyOpt(order.claims[i].canceledAt))
    ensures !TruthyOpt(item.swapId) && !TruthyOpt(item.claimOrderId) ==> !c
  {
    if TruthyOpt(item.swapId) then TravFind(order.swaps, item.swapId.value)
    else if TruthyOpt(item.claimOrderId) then TravFind(order.claims, item.claimOrderId.value)
    else false
  }

  /** Whether the table shows a row for the line: some units are not yet
      returned and the line is not canceled. */
  predicate Offered(order: Order, item: LineItem)
    ensures TruthyOpt(item.swapId) ==>
              (Offered(order, item) <==> Remaining(item) != 0 && !TravFind(order.swaps, item.swapId.value))
    ensures !TruthyOpt(item.swapId) && TruthyOpt(item.claimOrderId) ==>
              (Offered(order, item) <==> Remaining(item) != 0 && !TravFind(order.claims, item.claimOrderId.value))
    ensures !TruthyOpt(item.swapId) && !TruthyOpt(item.claimOrderId) ==>
              (Offered(order, item) <==> Remaining(item) != 0)
  {
    item.returnedQuantity != item.quantity && !IsLineItemCanceled(order, item)
  }

  /** The rows of the table, in the order of the order's lines. */
  function OfferedItems(order: Order, allItems: seq<LineItem>): (rows: seq<LineItem>)
    ensures |rows| <= |allItems|
    ensures forall x :: x in rows ==>
              x in allItems && x.returnedQuantity != x.quantity && !IsLineItemCanceled(order, x)
    ensures forall i :: 0 <= i < |allItems| ==>
              (allItems[i].returnedQuantity != allItems[i].quantity && !IsLineItemCanceled(order, allItems[i])
               ==> allItems[i] in rows)
  {
    Filter(allItems, (item: LineItem) => Offered(order, item))
  }

  /** A line from a swap is judged by the swap alone: a canceled claim with
      the line's claim id does not hide it. */
  lemma SwapTakesPrecedence(order: Order, item: LineItem)
    requires TruthyOpt(item.swapId) && TruthyOpt(item.claimOrderId)
    requires forall i :: 0 <= i < |order.swaps| ==> order.swaps[i].id != item.swapId.value
    requires exists i :: 0 <= i < |order.claims| && order.claims[i].id == item.claimOrderId.value &&
                         TruthyOpt(order.claims[i].canceledAt)
    ensures !IsLineItemCanceled(order, item)
  {
  }

  predicate ItemIdsDistinct(items: seq<LineItem>) {
    forall i, j :: 0 <= i < j < |items| ==> items[i].id != items[j].id
  }

  /** Every selected line's quantity lies between one and its returnable
      quantity. */
  predicate QuantitiesInRange(toReturn: ReturnMap, items: seq<LineItem>) {
    forall i :: 0 <= i < |items| && items[i].id in toReturn ==>
      toReturn[items[i].id].quantity.Some? &&
      1 <= toReturn[items[i].id].quantity.value <= Remaining(items[i])
  }

  /** The buttons keep every quantity in range. */
  lemma QuantityStepKeepsRange(toReturn: ReturnMap, items: seq<LineItem>, k: nat, change: int)
    requires ItemIdsDistinct(items) && QuantitiesInRange(toReturn, items)
    requires k < |items| && items[k].id in toReturn
    requires change == 1 || change == -1
    ensures QuantitiesInRange(HandleQuantity(toReturn, change, items[k]), items)
  {
  }

  /** Selecting or deselecting a line with something left to return keeps
      every quantity in range. */
  lemma ToggleKeepsRange(toReturn: ReturnMap, items: seq<LineItem>, k: nat, imagesOnReturns: bool)
    requires ItemIdsDistinct(items) && QuantitiesInRange(toReturn, items)
    requires k < |items| && Remaining(items[k]) >= 1
    ensures QuantitiesInRange(HandleReturnToggle(toReturn, items[k], imagesOnReturns), items)
  {
  }

  /** Setting the reason of a selected line keeps every quantity in range. */
  lemma SetReasonKeepsRange(toReturn: ReturnMap, items: seq<LineItem>, reason: Option<string>,
                            note: string, id: string)
    requires QuantitiesInRange(toReturn, items)
    requires id in toReturn
    ensures QuantitiesInRange(SetReturnReason(toReturn, reason, note, id), items)
  {
  }
}
